=== FILE: README.md ===
# BugScanner core, modelled in Dafny

BugScanner is a PHP command-line scanner. It expands a host file or an IPv4
CIDR block into hosts, crosses them with ports and request methods into a
task list, and runs one of five scanners (direct HTTP, ping, UDP, SSL,
WebSocket) on every task. Each task runs in a forked child, with at most
`threads` children alive at once (one at a time when `threads` is 0).

This project models the deterministic core of that script:

- **CIDR expansion** (`Cidr`, on top of `Bits`). `generateIpsFromCidr` computes its
  bitmask with PHP's 64-bit `~`, `&` and `|`. The model computes the same
  thing with bitwise AND/OR on naturals, defined bit by bit. It proves that
  the mask finds the network and broadcast address of the block as section
  3.1 of RFC 4632 defines them. The script's own `+ 1` and `- 1` then skip
  those two, so the result is every address strictly between them, in
  ascending order.
- **Task list** (`Tasks`). This is the host × port × method loop of `main`,
  with its length and index layout.
- **URL helpers** (`Url`, `Decimal`). These are `convertHostPort` and
  `getUrl`, plus a reader for the URLs they build. The reader proves that
  nothing is lost for hosts that contain neither `:` nor `/`.
- **Probe decisions** (`Probes`). These are the mode `switch` of `main` and
  the status-set verdict of the WebSocket scanner.
- **Worker pool** (`WorkerPool`). The slot accounting of `runTasks` and
  `waitForProcess` becomes a sequential state machine. A function parameter
  chooses which child each wait reaps; another says whether a fork fails.
  Together they cover every completion order and every fork failure.
- **main** (`Scanner`). This builds the host list, picks the scanner, plans
  the tasks and runs them.

Addresses are naturals below 2^32 and ports are naturals. Hosts are either
a host-file line or an address (`Tasks.Host`).

Behaviour of the code that a reader might not expect, and that the model
keeps:

- `getUrl` appends `/uri` when the uri is PHP-truthy, not merely non-empty.
  The uri `"0"` is therefore dropped too (`Url.ZeroUriDropped`).
- A prefix above 32 is not an accepted input. `1 << (32 - prefix)` then
  shifts by a negative amount, and PHP raises an error before producing any
  host (`Cidr.CidrError`).
- With `threads` equal to 0 the pool does not deadlock and does not grow
  without bound. Every admission first waits (for nothing when no child is
  running), so the children run one at a time (`WorkerPool.Capacity`).
- `!empty($filename)` treats the file name `"0"` as absent
  (`Scanner.PhpEmpty`).

## Model

| member | source | states |
|---|---|---|
| Cidr.NetMaskIsComplement | BugScanner.php:186 | the 32 low bits of `$mask` and the host mask `(1 << (32 - prefix)) - 1` are complements: together they cover all 32 bits exactly once |
| Cidr.NetMaskClearsHostBits | BugScanner.php:186-187 | `$ip & $mask` is the network address: the base with its 32 - prefix host bits cleared |
| Cidr.MaskArithmetic | BugScanner.php:186-188 | `$start` is network + 1 and `$end` is broadcast - 1; the whole block lies inside the 32-bit address space |
| Cidr.ExpandCidr | BugScanner.php:182-194 | fails exactly for a prefix above 32 (negative shift); otherwise yields 2^(32-prefix) - 2 addresses for prefixes up to 30 and none for 31 and 32, and the i-th address is network + 1 + i |
| Cidr.GenerateIpsFromCidr | BugScanner.php:190-193 | the `for ($i = $start; $i <= $end; $i++)` loop appending each address builds exactly the expansion |
| Cidr.CidrMembership | BugScanner.php:187-192 | an address is produced if and only if it lies strictly between the network and the broadcast address of the block |
| Cidr.CidrExcludesNetworkAndBroadcast | BugScanner.php:187-188 | neither the network nor the broadcast address is ever produced |
| Cidr.CidrAscending | BugScanner.php:190-192 | the produced addresses are strictly ascending |
| Cidr.CidrDependsOnlyOnBlock | BugScanner.php:185-188 | two bases that agree under the mask give identical expansions; host bits of the base are irrelevant |
| Cidr.CidrDegenerate | BugScanner.php:187-190 | for prefixes 31 and 32 the computed start exceeds the end and the expansion is empty |
| Cidr.CidrSlash30 | BugScanner.php:182-194 | a block-aligned /30 such as 192.168.1.0/30 yields exactly base + 1 and base + 2 |
| Bits.AndClearsLowBits | BugScanner.php:187 | AND with a mask whose bits k and up are set clears exactly the low k bits |
| Bits.OrSetsLowBits | BugScanner.php:188 | OR with 2^k - 1 sets exactly the low k bits |
| Tasks.CrossProduct | BugScanner.php:232-238 | the task list has (number of hosts) × (number of ports) × (number of methods) entries |
| Tasks.CrossProductAppend | BugScanner.php:232-238 | the task list of two host lists placed one after the other is the two task lists placed one after the other: each host contributes its own block, independent of the others |
| Tasks.CrossProductSplit | BugScanner.php:232-238 | around host i the task list is the i × P × M tasks of the hosts before it, then host i's own block, then the rest; offset j × M + k of that block is the task for port j and method k, with P ports and M methods |
| Tasks.CrossProductIndex | BugScanner.php:232-238 | the task for host i, port j, method k sits at index (i × P + j) × M + k, with P ports and M methods, so hosts vary slowest and the methods of one (host, port) pair are adjacent |
| Tasks.CrossProductMembership | BugScanner.php:232-238 | a task is in the list if and only if its host, port and method are each in their lists |
| Tasks.AddTasks | BugScanner.php:232-238 | the three nested foreach loops, each `addTask` appending one task, build exactly the cross product |
| Url.HostPort | BugScanner.php:17-19 | the authority is the bare host exactly when the port is 80 or 443, and always starts with the host |
| Decimal.ParseNatToString | BugScanner.php:18 | the decimal text of a port reads back as the same port |
| Url.GetUrl | BugScanner.php:21-24 | the scheme is https exactly for port 443; the URL starts with scheme `://` authority; `/uri` follows exactly when the uri is truthy, and nothing follows otherwise |
| Url.AuthorityRoundTrip | BugScanner.php:17-19 | for a host without `:` or `/`, the authority reads back as that host and port, the port written out or implied by the scheme |
| Url.UrlRoundTrip | BugScanner.php:21-24 | reading back a built URL gives scheme https exactly for port 443, the host, the port (written out or implied by the scheme), and the uri exactly when it is truthy |
| Url.ZeroUriDropped | BugScanner.php:23 | the uri "0" is falsy in PHP and leaves the URL as if no uri were given |
| Probes.ParseMode | BugScanner.php:212-230 | an accepted mode string is exactly the name of the scanner it selects |
| Probes.ModeRoundTrip | BugScanner.php:212-227 | each of the five scanners is selected by its own name |
| Probes.ModeAcceptedIffNamed | BugScanner.php:212-230 | a mode string is accepted if and only if it names one of the five scanners |
| Probes.InArray | BugScanner.php:160 | `in_array` holds exactly when the value occurs in the list |
| Probes.WebSocketVerdict | BugScanner.php:160-164 | the verdict is success, carrying the status, if and only if the status is one of 101, 403, 426, 429, 500 and 503 |
| Probes.WebSocketRejectsOrdinarySuccess | BugScanner.php:160-164 | status 0 (no response) and every 2xx and 3xx status give a failed verdict |
| WorkerPool.RemoveAll | BugScanner.php:56 | the filter removes exactly the entries equal to the reaped pid; it keeps distinct pids distinct and shortens such a list by exactly one |
| WorkerPool.WaitForProcess | BugScanner.php:54-57 | one running child is reaped and appended to the reaped list; only that pid leaves `processes`, all others stay; with no children nothing changes; the pool invariant is preserved and the count drops by one |
| WorkerPool.MakeRoomFreesSlot | BugScanner.php:36-38 | after the wait at the top of an iteration the running count is below the capacity, so every admission finds a free slot |
| WorkerPool.Fork | BugScanner.php:39-43 | admitting a task appends it to the record and appends its new pid to the running children; the old children, the reaped list and the thread count are kept; the peak rises to the new count when exceeded; the new pid is neither running nor reaped before, and the invariant holds when a slot was free |
| WorkerPool.AdmitFillsSlot | BugScanner.php:35-44 | one iteration of the foreach (wait when full, then fork) keeps the bookkeeping consistent, records the task, and raises the running count by one up to the capacity, never beyond |
| WorkerPool.Drain | BugScanner.php:49-51 | the closing wait loop ends with no child running, every pid forked so far reaped exactly once and nothing else reaped, and the task record and peak untouched |
| WorkerPool.RunTasks | BugScanner.php:34-52 | the run completes exactly when no fork fails; the tasks are handed out in list order, each once; on completion no child is left, every forked pid was reaped exactly once, and the largest running count is exactly min(capacity, number of tasks); after a failed fork the tasks handed out are a proper prefix, every fork before it succeeded, and the fork of the next task is the one that failed, so the run stops at the first failure |
| Scanner.HostList | BugScanner.php:200-206 | a non-empty file name gives the file's lines; otherwise a CIDR argument gives its expansion (or the shift error); otherwise the list is empty |
| Scanner.Plan | BugScanner.php:196-238 | a host-list error comes first; then the plan fails with an invalid mode exactly when the mode names no scanner; a plan carries that scanner, the thread count and exactly the cross product of hosts, ports and methods in loop order, (number of hosts) × (number of ports) × (number of methods) tasks |
| Scanner.NoHostSourceRunsNothing | BugScanner.php:200-206 | with neither a host file nor a CIDR block, a valid mode plans zero tasks instead of failing |
| Scanner.Scan | BugScanner.php:196-241 | a configuration error aborts before any task is handed out; otherwise the planned tasks are run: the run completes exactly when no fork of a planned task fails, the tasks handed out are a prefix of the plan, and on completion they are all of it, no child is left and the peak is min(capacity, number of tasks); a stopped run stops at the first failed fork of a planned task, every earlier fork having succeeded; never more than capacity children at once |

## Left out

- Forking, waiting and exiting as operating-system operations. They are
  replaced by the admit/complete state machine. Pids are numbered 1, 2, 3, ….
  The child side (`$this->task($task); exit(0);`) is the scanner body below.
- `pcntl_wait` returning -1 while children are still running (for example
  when a signal interrupts it). The model's wait always reaps a running child
  when there is one.
- The network bodies of the five scanners. These are curl in the direct and
  WebSocket scanners, `shell_exec` ping, the UDP socket and the SSL stream
  client. They are foreign I/O. Only the WebSocket status decision is kept.
  The ping and UDP verdicts are not modelled.
- `getopt`, reading the host file with `file()`, and `echo` logging. These
  are I/O. The host file's lines are a parameter of `Scanner.HostList`.
- `ip2long` and `long2ip`. Addresses are 32-bit naturals, and a failed
  `ip2long` is not modelled.
- CIDR text parsing: a missing `/`, a negative or non-numeric prefix.
  Prefixes are naturals.
- The proxy option. It is parsed but never used.
- Ports and the thread count are naturals, not the command-line strings.
  PHP's loose `==` on port strings ("080" == "80") and the verbatim port
  text in `host:port` are not modelled. The model writes the port in
  canonical decimal.
- `array_filter` keeps the surviving array keys. Only the count and the
  members of `processes` matter, so the model uses a plain sequence.
- Url.UrlRoundTrip: holds only for hosts without `:` or `/`. Host-file
  lines reach `convertHostPort` unchecked, and for a line such as `a:1` the
  built URL `http://a:1` reads back as host `a`, port 1.
- Concurrency between children and the interleaving of their log lines.

=== FILE: bits.dfy ===
/**
  Powers of two and bitwise AND / OR on non-negative integers, defined bit by
  bit from the least significant end, together with the two facts the CIDR
  arithmetic relies on: AND with a high mask clears the low bits, OR with a
  low mask sets them.
*/
module Bits {

  function Pow2(k: nat): (r: nat)
    ensures r >= 1
  {
    if k == 0 then 1 else 2 * Pow2(k - 1)
  }

  /** Bitwise AND: the result has a 1 exactly where both operands do. */
  function And(a: nat, b: nat): nat
    decreases a
  {
    if a == 0 || b == 0 then 0
    else 2 * And(a / 2, b / 2) + (if a % 2 == 1 && b % 2 == 1 then 1 else 0)
  }

  /** Bitwise OR: the result has a 1 exactly where either operand does. */
  function Or(a: nat, b: nat): nat
    decreases a + b
  {
    if a == 0 then b
    else if b == 0 then a
    else 2 * Or(a / 2, b / 2) + (if a % 2 == 1 || b % 2 == 1 then 1 else 0)
  }

  lemma {:induction false} Pow2Add(a: nat, b: nat)
    ensures Pow2(a + b) == Pow2(a) * Pow2(b)
    decreases a
  {
    if a > 0 {
      Pow2Add(a - 1, b);
      assert Pow2(a + b) == 2 * Pow2(a - 1 + b);
    }
  }

  /** Division has a unique quotient and remainder. */
  lemma DivModUnique(a: nat, d: nat, q: nat, s: nat)
    requires 0 <= s < d
    requires a == d * q + s
    ensures a / d == q && a % d == s
  {
    var q' := a / d;
    var s' := a % d;
    assert a == d * q' + s';
    if q' > q {
      assert d * q' >= d * (q + 1) by { MulMonotone(d, q + 1, q'); }
      assert false;
    } else if q' < q {
      assert d * q >= d * (q' + 1) by { MulMonotone(d, q' + 1, q); }
      assert false;
    }
  }

  lemma MulMonotone(d: nat, x: nat, y: nat)
    requires x <= y
    ensures d * x <= d * y
  {
  }

  /** The remainder modulo 2^k, seen one bit at a time. */
  lemma ModPow2Step(a: nat, k: nat)
    requires k > 0
    ensures a % Pow2(k) == 2 * ((a / 2) % Pow2(k - 1)) + a % 2
  {
    var p := Pow2(k - 1);
    var q := a / 2;
    var t := q / p;
    var s := q % p;
    assert q == p * t + s;
    assert a == 2 * q + a % 2;
    assert a == (2 * p) * t + (2 * s + a % 2);
    DivModUnique(a, 2 * p, t, 2 * s + a % 2);
  }

  /** AND with 2^w - 1 leaves every w-bit number unchanged. */
  lemma {:induction false} AndAllOnes(a: nat, w: nat)
    requires a < Pow2(w)
    ensures And(a, Pow2(w) - 1) == a
    decreases w
  {
    if a != 0 {
      assert w > 0;
      var m := Pow2(w) - 1;
      assert m % 2 == 1 && m / 2 == Pow2(w - 1) - 1;
      AndAllOnes(a / 2, w - 1);
      assert And(a, m) == 2 * And(a / 2, m / 2) + a % 2;
    }
  }

  /** The mask whose bits k..k+n-1 are set. */
  function HighMask(k: nat, n: nat): nat
  {
    Pow2(k) * (Pow2(n) - 1)
  }

  lemma HighMaskStep(k: nat, n: nat)
    requires k > 0
    ensures HighMask(k, n) % 2 == 0
    ensures HighMask(k, n) / 2 == HighMask(k - 1, n)
  {
    assert HighMask(k, n) == 2 * HighMask(k - 1, n);
  }

  /**
    AND with the mask whose bits k..k+n-1 are set clears the low k bits of a
    (k+n)-bit number.
  */
  lemma {:induction false} AndClearsLowBits(a: nat, k: nat, n: nat)
    requires a < Pow2(k + n)
    ensures And(a, HighMask(k, n)) == a - a % Pow2(k)
    decreases k
  {
    if k == 0 {
      AndAllOnes(a, n);
    } else if a != 0 {
      if n == 0 {
        assert HighMask(k, n) == 0;
        DivModUnique(a, Pow2(k), 0, a);
      } else {
        HighMaskStep(k, n);
        assert a / 2 < Pow2(k - 1 + n);
        AndClearsLowBits(a / 2, k - 1, n);
        assert And(a, HighMask(k, n)) == 2 * And(a / 2, HighMask(k - 1, n));
        ModPow2Step(a, k);
      }
    }
  }

  /** One bit of OR with 2^k - 1: the lowest bit comes out set, the rest is the same OR one bit narrower. */
  lemma OrLowOnesStep(a: nat, k: nat)
    requires a > 0 && k > 0
    ensures Pow2(k) == 2 * Pow2(k - 1)
    ensures Or(a, Pow2(k) - 1) == 2 * Or(a / 2, Pow2(k - 1) - 1) + 1
  {
    var m := Pow2(k) - 1;
    assert m % 2 == 1 && m / 2 == Pow2(k - 1) - 1;
  }

  /** The low k bits of a, read off bit by bit. */
  function LowBits(a: nat, k: nat): nat
  {
    if k == 0 then 0 else 2 * LowBits(a / 2, k - 1) + a % 2
  }

  /** Reading the low k bits bit by bit gives the remainder modulo 2^k. */
  lemma {:induction false} LowBitsMod(a: nat, k: nat)
    ensures LowBits(a, k) == a % Pow2(k)
    decreases k
  {
    if k > 0 {
      LowBitsMod(a / 2, k - 1);
      ModPow2Step(a, k);
    }
  }

  /** OR with 2^k - 1 sets the low k bits. */
  lemma OrSetsLowBits(a: nat, k: nat)
    ensures Or(a, Pow2(k) - 1) == a - a % Pow2(k) + Pow2(k) - 1
  {
    OrFillsLowBits(a, k);
    LowBitsMod(a, k);
  }

  /** The same, with the low bits read off one at a time. */
  lemma {:induction false} OrFillsLowBits(a: nat, k: nat)
    ensures Or(a, Pow2(k) - 1) == a - LowBits(a, k) + Pow2(k) - 1
    decreases k
  {
    if k == 0 {
    } else if a == 0 {
      ZeroLowBits(k);
    } else {
      OrFillsLowBits(a / 2, k - 1);
      OrLowOnesStep(a, k);
    }
  }

  lemma {:induction false} ZeroLowBits(k: nat)
    ensures LowBits(0, k) == 0
  {
    if k > 0 {
      ZeroLowBits(k - 1);
    }
  }
}

=== FILE: cidr.dfy ===
/**
  Expansion of an IPv4 CIDR block into its usable host addresses
  (generateIpsFromCidr). Addresses are 32-bit naturals; the dotted-quad text
  conversions on either side are not part of this model.

  The block is the one of section 3.1 of RFC 4632: the prefix selects the
  network bits and the remaining 32 - prefix host bits run through the
  block. Skipping the all-zeros and all-ones host parts (network and
  broadcast address) is the script's own choice, its `+ 1` and `- 1`.
*/
module Cidr {
  import opened Bits
  import opened Wrappers

  /** 2^32, the number of IPv4 addresses. */
  const AddressCount: nat := 0x1_0000_0000

  type Addr = x: nat | x < 0x1_0000_0000

  /**
    A prefix above 32 makes `1 << (32 - prefix)` a shift by a negative amount,
    which PHP rejects with an ArithmeticError before any host is produced.
  */
  datatype CidrError = NegativeShift

  lemma Pow2ThirtyTwo()
    ensures Pow2(32) == AddressCount
  {
    assert Pow2(4) == 16 by {
      assert Pow2(1) == 2;
      assert Pow2(2) == 4;
      assert Pow2(3) == 8;
    }
    Pow2Add(4, 4);
    Pow2Add(8, 8);
    Pow2Add(16, 16);
  }

  /** `(1 << (32 - prefix)) - 1`: the host bits of the block. */
  function HostMask(prefix: nat): nat
    requires prefix <= 32
  {
    Pow2(32 - prefix) - 1
  }

  /**
    The low 32 bits of PHP's `$mask = ~HostMask`: bits 32 - prefix .. 31 set.
    PHP integers are 64 bits wide, so the real mask also has every bit above
    31 set; those bits meet only zero bits of a 32-bit address and never
    affect `$ip & $mask`. NetMaskIsComplement shows this is the 32-bit
    complement of the host mask.
  */
  function NetMask(prefix: nat): nat
    requires prefix <= 32
  {
    HighMask(32 - prefix, prefix)
  }

  /** `($ip & $mask) + 1`: the first address the loop emits. */
  function Start(base: Addr, prefix: nat): int
    requires prefix <= 32
  {
    And(base, NetMask(prefix)) + 1
  }

  /** `($ip | ~$mask) - 1`: the last address the loop emits. */
  function End(base: Addr, prefix: nat): int
    requires prefix <= 32
  {
    Or(base, HostMask(prefix)) - 1
  }

  /** Number of addresses in a block with this prefix. */
  function BlockSize(prefix: nat): nat
    requires prefix <= 32
  {
    Pow2(32 - prefix)
  }

  /** The network address: the base with every host bit cleared. */
  function Network(base: Addr, prefix: nat): int
    requires prefix <= 32
  {
    base - base % BlockSize(prefix)
  }

  /** The broadcast address: the base with every host bit set. */
  function Broadcast(base: Addr, prefix: nat): int
    requires prefix <= 32
  {
    Network(base, prefix) + BlockSize(prefix) - 1
  }

  /** The network and host masks split the 32 address bits between them. */
  lemma NetMaskIsComplement(prefix: nat)
    requires prefix <= 32
    ensures NetMask(prefix) + HostMask(prefix) == 0xFFFF_FFFF
  {
    var pk := Pow2(32 - prefix);
    var pp := Pow2(prefix);
    SplitAddressSpace(prefix);
    MulSubOne(pk, pp);
  }

  /** `$ip & $mask` clears the host bits. */
  lemma NetMaskClearsHostBits(base: Addr, prefix: nat)
    requires prefix <= 32
    ensures And(base, NetMask(prefix)) == Network(base, prefix)
  {
    Pow2ThirtyTwo();
    assert 32 - prefix + prefix == 32;
    AndClearsLowBits(base, 32 - prefix, prefix);
  }

  /** 2^32 == 2^(32 - prefix) * 2^prefix. */
  lemma SplitAddressSpace(prefix: nat)
    requires prefix <= 32
    ensures Pow2(32 - prefix) * Pow2(prefix) == AddressCount
  {
    var k := 32 - prefix;
    Pow2Add(k, prefix);
    Pow2ThirtyTwo();
  }

  lemma MulSubOne(x: nat, y: nat)
    ensures x * (y - 1) == x * y - x
  {
  }

  /** The whole block lies inside the address space. */
  lemma BlockInAddressSpace(base: Addr, prefix: nat)
    requires prefix <= 32
    ensures 0 <= Network(base, prefix) <= base <= Broadcast(base, prefix) < AddressCount
  {
    var b := BlockSize(prefix);
    var n := Pow2(prefix);
    SplitAddressSpace(prefix);
    assert b * n == AddressCount;
    MultipleBelowProduct(base, b, n);
  }

  /** If x < b * n then the multiple of b at or below x is at most b * n - b. */
  lemma MultipleBelowProduct(x: nat, b: nat, n: nat)
    requires b > 0 && x < b * n
    ensures 0 <= x - x % b <= x <= x - x % b + b - 1
    ensures x - x % b + b <= b * n
  {
    var q := x / b;
    assert x == b * q + x % b;
    if q >= n {
      MulMonotone(b, n, q);
      assert false;
    }
    MulMonotone(b, q + 1, n);
    assert b * (q + 1) == b * q + b;
  }

  /** The bitmask computation agrees with the block arithmetic. */
  lemma MaskArithmetic(base: Addr, prefix: nat)
    requires prefix <= 32
    ensures Start(base, prefix) == Network(base, prefix) + 1
    ensures End(base, prefix) == Broadcast(base, prefix) - 1
    ensures 0 <= Network(base, prefix) <= base <= Broadcast(base, prefix) < AddressCount
  {
    NetMaskClearsHostBits(base, prefix);
    OrSetsLowBits(base, 32 - prefix);
    BlockInAddressSpace(base, prefix);
  }

  /** The loop counter stays inside the address space. */
  lemma LoopBounds(base: Addr, prefix: nat)
    requires prefix <= 32
    ensures 1 <= Start(base, prefix)
    ensures End(base, prefix) <= AddressCount - 2
  {
    MaskArithmetic(base, prefix);
  }

  /** The ascending run lo, lo+1, ..., hi (empty when hi < lo). */
  function AddrRange(lo: int, hi: int): (r: seq<Addr>)
    requires 0 <= lo && hi < AddressCount
    ensures |r| == if hi < lo then 0 else hi - lo + 1
    ensures forall i :: 0 <= i < |r| ==> r[i] == lo + i
  {
    if hi < lo then [] else seq(hi - lo + 1, i requires 0 <= i < hi - lo + 1 => (lo + i) as Addr)
  }

  /**
    generateIpsFromCidr: every address strictly between the network and the
    broadcast address of the block, in ascending order. For prefixes 31 and
    32 the computed start lies above the end and nothing is produced.
  */
  function ExpandCidr(base: Addr, prefix: nat): (r: Result<seq<Addr>, CidrError>)
    ensures r.Failure? <==> prefix > 32
    ensures r.Success? ==> |r.value| == if prefix <= 30 then Pow2(32 - prefix) - 2 else 0
    ensures r.Success? ==> forall i :: 0 <= i < |r.value| ==> r.value[i] == Network(base, prefix) + 1 + i
  {
    if prefix > 32 then Failure(NegativeShift)
    else
      MaskArithmetic(base, prefix);
      if prefix <= 30 then Pow2Add(2, 30 - prefix); Success(AddrRange(Start(base, prefix), End(base, prefix)))
      else Success(AddrRange(Start(base, prefix), End(base, prefix)))
  }

  /** The loop of generateIpsFromCidr, appending one address per iteration. */
  method GenerateIpsFromCidr(base: Addr, prefix: nat) returns (r: Result<seq<Addr>, CidrError>)
    ensures r == ExpandCidr(base, prefix)
  {
    if prefix > 32 {
      return Failure(NegativeShift);
    }
    var start := Start(base, prefix);
    var end := End(base, prefix);
    LoopBounds(base, prefix);
    var hosts: seq<Addr> := [];
    var i := start;
    while i <= end
      invariant start <= i <= if start <= end then end + 1 else start
      invariant |hosts| == i - start
      invariant forall k :: 0 <= k < |hosts| ==> hosts[k] == start + k
    {
      hosts := hosts + [i as Addr];
      i := i + 1;
    }
    assert hosts == AddrRange(start, end);
    r := Success(hosts);
  }

  /** Exactly the addresses strictly inside the block are produced. */
  lemma CidrMembership(base: Addr, prefix: nat, a: Addr)
    requires prefix <= 32
    ensures a in ExpandCidr(base, prefix).value <==> Network(base, prefix) < a < Broadcast(base, prefix)
  {
    var hosts := ExpandCidr(base, prefix).value;
    MaskArithmetic(base, prefix);
    if Network(base, prefix) < a < Broadcast(base, prefix) {
      assert Pow2(1) == 2;
      assert prefix <= 30;
      Pow2Add(2, 30 - prefix);
      var i := a - Network(base, prefix) - 1;
      assert hosts[i] == a;
    }
  }

  /** In particular neither the network nor the broadcast address appears. */
  lemma CidrExcludesNetworkAndBroadcast(base: Addr, prefix: nat)
    requires prefix <= 32
    ensures forall a :: a in ExpandCidr(base, prefix).value ==> a != Network(base, prefix) && a != Broadcast(base, prefix)
  {
    forall a | a in ExpandCidr(base, prefix).value
      ensures a != Network(base, prefix) && a != Broadcast(base, prefix)
    {
      CidrMembership(base, prefix, a);
    }
  }

  /** The produced addresses are strictly ascending. */
  lemma CidrAscending(base: Addr, prefix: nat)
    requires prefix <= 32
    ensures forall i, j :: 0 <= i < j < |ExpandCidr(base, prefix).value| ==>
      ExpandCidr(base, prefix).value[i] < ExpandCidr(base, prefix).value[j]
  {
  }

  /**
    Only the block matters: two bases that agree under the network mask
    (same `$ip & $mask`) expand to the same sequence.
  */
  lemma CidrDependsOnlyOnBlock(b1: Addr, b2: Addr, prefix: nat)
    requires prefix <= 32
    requires And(b1, NetMask(prefix)) == And(b2, NetMask(prefix))
    ensures ExpandCidr(b1, prefix) == ExpandCidr(b2, prefix)
  {
    NetMaskClearsHostBits(b1, prefix);
    NetMaskClearsHostBits(b2, prefix);
    var r1 := ExpandCidr(b1, prefix).value;
    var r2 := ExpandCidr(b2, prefix).value;
    assert |r1| == |r2|;
    forall i | 0 <= i < |r1|
      ensures r1[i] == r2[i]
    {
    }
  }

  /**
    Prefixes 31 and 32: the computed start exceeds the computed end, so the
    loop never runs (a /31 point-to-point pair and a /32 single host both
    yield no hosts at all).
  */
  lemma CidrDegenerate(base: Addr, prefix: nat)
    requires prefix == 31 || prefix == 32
    ensures Start(base, prefix) > End(base, prefix)
    ensures ExpandCidr(base, prefix) == Success([])
  {
    MaskArithmetic(base, prefix);
    assert Pow2(1) == 2;
  }

  /** A block-aligned /30 holds exactly two hosts, e.g. 192.168.1.0/30 yields 192.168.1.1 and 192.168.1.2. */
  lemma CidrSlash30(base: Addr, prefix: nat)
    requires base % 4 == 0 && prefix == 30
    ensures ExpandCidr(base, prefix).value == [base + 1, base + 2]
  {
    assert BlockSize(prefix) == 4 by { assert Pow2(2) == 4; }
    var r := ExpandCidr(base, prefix).value;
    assert |r| == 2;
    assert r[0] == base + 1 && r[1] == base + 2;
  }
}

=== FILE: decimal.dfy ===
/**
  Decimal text of natural numbers, as PHP renders an integer inside a
  double-quoted string, and its inverse.
*/
module Decimal {
  import opened Wrappers

  predicate IsDigit(c: char)
  {
    '0' <= c <= '9'
  }

  predicate AllDigits(s: string)
  {
    forall i :: 0 <= i < |s| ==> IsDigit(s[i])
  }

  function DigitChar(d: nat): (c: char)
    requires d < 10
    ensures IsDigit(c)
  {
    (d + '0' as int) as char
  }

  function DigitValue(c: char): (d: nat)
    requires IsDigit(c)
    ensures d < 10
  {
    c as int - '0' as int
  }

  /** Shortest decimal text of n: at least one digit, no leading zero. */
  function NatToString(n: nat): (s: string)
    ensures |s| >= 1 && AllDigits(s)
    ensures |s| > 1 ==> s[0] != '0'
  {
    if n < 10 then [DigitChar(n)] else NatToString(n / 10) + [DigitChar(n % 10)]
  }

  /** Value of a string of decimal digits, most significant first. */
  function DigitsValue(s: string): nat
    requires AllDigits(s)
  {
    if |s| == 0 then 0 else DigitsValue(s[..|s| - 1]) * 10 + DigitValue(s[|s| - 1])
  }

  /** A non-empty run of decimal digits, read as a number; anything else is rejected. */
  function ParseNat(s: string): (r: Option<nat>)
    ensures r.Some? <==> |s| > 0 && AllDigits(s)
  {
    if |s| > 0 && AllDigits(s) then Some(DigitsValue(s)) else None
  }

  /** Rendering a number and reading it back gives the number. */
  lemma {:induction false} ParseNatToString(n: nat)
    ensures ParseNat(NatToString(n)) == Some(n)
    decreases n
  {
    var s := NatToString(n);
    if n < 10 {
      assert DigitsValue(s) == DigitsValue([]) * 10 + DigitValue(s[0]);
    } else {
      var t := NatToString(n / 10);
      ParseNatToString(n / 10);
      assert s[..|s| - 1] == t;
      assert DigitsValue(s) == DigitsValue(t) * 10 + DigitValue(s[|s| - 1]);
    }
  }
}

=== FILE: pool.dfy ===
/**
  The worker-pool slot accounting of runTasks and waitForProcess, with the
  process creation abstracted into a sequential state machine.

  Forking a child becomes "admit the task": the child's pid joins
  `processes` and the task is recorded as handed to it. `pcntl_wait`
  becomes "some running child completes": which one is chosen by the
  parameter `reapChoice`, so every completion order the operating system
  could produce is one choice of that function. Whether a fork fails is
  likewise the parameter `forkFails`. Pids are handed out as 1, 2, 3, ...,
  which keeps them non-zero (the parent branch of the fork) and distinct
  among the children the scanner knows of.
*/
module WorkerPool {
  import opened Tasks
  import opened Seqs

  type Pid = nat

  /**
    The scanner's state. `threads` and `processes` are the fields of the same
    name; `started[p - 1]` is the task handed to the child with pid p,
    `reaped` lists the pids collected by waitForProcess in order, and `peak`
    is the largest number of children that were ever running at once.
  */
  datatype Pool = Pool(threads: nat, processes: seq<Pid>, started: seq<Task>, reaped: seq<Pid>, peak: nat)

  function Min(a: nat, b: nat): nat
  {
    if a <= b then a else b
  }

  /**
    How many children can run at once. With `$threads` 0 the pool check
    `count >= 0` always holds, so each admission first reaps the one running
    child (or nothing, when there is none): the scanner runs serially.
  */
  function Capacity(threads: nat): (c: nat)
    ensures c >= 1 && c >= threads
  {
    if threads == 0 then 1 else threads
  }

  predicate Distinct(s: seq<Pid>)
  {
    forall i, j :: 0 <= i < j < |s| ==> s[i] != s[j]
  }

  /**
    The bookkeeping is consistent: every pid forked so far is either still
    running or reaped (never both, never twice), nothing else appears, and
    the running count never exceeded the capacity.
  */
  ghost predicate Inv(p: Pool)
  {
    && Distinct(p.processes)
    && Distinct(p.reaped)
    && (forall q :: q in p.processes ==> 1 <= q <= |p.started|)
    && (forall q :: q in p.reaped ==> 1 <= q <= |p.started|)
    && (forall q :: 1 <= q <= |p.started| ==> (q in p.processes <==> q !in p.reaped))
    && |p.processes| <= p.peak <= Capacity(p.threads)
  }

  /** `array_filter($processes, fn($p) => $p != $pid)`: drop every entry equal to pid, keep the rest in order. */
  function RemoveAll(s: seq<Pid>, pid: int): (r: seq<Pid>)
    ensures forall q :: q in r <==> q in s && q != pid
    ensures |r| <= |s|
    ensures Distinct(s) ==> Distinct(r)
    ensures Distinct(s) && pid in s ==> |r| == |s| - 1
    ensures pid !in s ==> r == s
  {
    if |s| == 0 then []
    else
      var rest := RemoveAll(s[1..], pid);
      assert s == [s[0]] + s[1..];
      if s[0] == pid then rest
      else
        var r := [s[0]] + rest;
        assert Distinct(s) ==> Distinct(r) by {
          if Distinct(s) {
            assert s[0] !in s[1..];
            forall i, j | 0 <= i < j < |r|
              ensures r[i] != r[j]
            {
              if i == 0 {
                assert r[j] == rest[j - 1];
              }
            }
          }
        }
        r
  }

  /** The pid `pcntl_wait` returns: the chosen running child, or -1 when there is none. */
  function WaitedPid(p: Pool, choice: nat): int
  {
    if |p.processes| == 0 then -1 else p.processes[choice % |p.processes|]
  }

  /**
    waitForProcess: one running child completes and is removed from
    `processes`; the others stay. With no children the wait returns -1 and
    nothing changes.
  */
  function WaitForProcess(p: Pool, choice: nat): (r: Pool)
    ensures |p.processes| == 0 ==> r == p
    ensures r.threads == p.threads && r.started == p.started && r.peak == p.peak
    ensures |p.processes| > 0 ==>
      && |r.reaped| == |p.reaped| + 1
      && r.reaped[..|p.reaped|] == p.reaped
      && r.reaped[|p.reaped|] in p.processes
      && (forall q :: q in r.processes <==> q in p.processes && q != r.reaped[|p.reaped|])
    ensures Inv(p) ==> Inv(r)
    ensures Inv(p) && |p.processes| > 0 ==> |r.processes| == |p.processes| - 1
  {
    var pid := WaitedPid(p, choice);
    if pid < 0 then p
    else
      var r := p.(processes := RemoveAll(p.processes, pid), reaped := p.reaped + [pid]);
      assert r.reaped[..|p.reaped|] == p.reaped;
      assert Inv(p) ==> Inv(r) by {
        if Inv(p) {
          assert pid !in p.reaped;
          forall i, j | 0 <= i < j < |r.reaped|
            ensures r.reaped[i] != r.reaped[j]
          {
            if j == |p.reaped| {
              assert r.reaped[i] == p.reaped[i];
            }
          }
        }
      }
      r
  }

  /**
    The wait at the top of each foreach iteration: when the pool is full,
    one child is reaped first.
  */
  function MakeRoom(p: Pool, choice: nat): Pool
  {
    if |p.processes| >= p.threads then WaitForProcess(p, choice) else p
  }

  /** Before every admission a slot is free: the running count is below the capacity. */
  lemma MakeRoomFreesSlot(p: Pool, choice: nat)
    requires Inv(p)
    ensures Inv(MakeRoom(p, choice))
    ensures |MakeRoom(p, choice).processes| < Capacity(p.threads)
  {
  }

  /** The parent side of a successful fork: the new child's pid joins `processes`, running the task. */
  function Fork(p: Pool, task: Task): (r: Pool)
    ensures r.started == p.started + [task]
    ensures r.processes == p.processes + [|r.started|]
    ensures r.reaped == p.reaped && r.threads == p.threads
    ensures r.peak == if p.peak < |r.processes| then |r.processes| else p.peak
    ensures Inv(p) ==> |r.started| !in p.processes + p.reaped
    ensures Inv(p) && |p.processes| < Capacity(p.threads) ==> Inv(r)
  {
    var pid := |p.started| + 1;
    var r := p.(processes := p.processes + [pid], started := p.started + [task],
                peak := if p.peak < |p.processes| + 1 then |p.processes| + 1 else p.peak);
    assert Inv(p) && |p.processes| < Capacity(p.threads) ==> Inv(r) by {
      if Inv(p) && |p.processes| < Capacity(p.threads) {
        assert pid !in p.processes;
        forall q | 1 <= q <= |r.started|
          ensures q in r.processes <==> q !in r.reaped
        {
          if q < pid {
            assert q in r.processes <==> q in p.processes;
          }
        }
      }
    }
    r
  }

  /**
    One iteration of the admission loop while every slot used so far is
    still taken: wait if the pool is full, then fork. The running count grows
    by one until it reaches the capacity and stays there.
  */
  lemma AdmitFillsSlot(p: Pool, choice: nat, task: Task)
    requires Inv(p) && |p.processes| == p.peak
    ensures MakeRoom(p, choice).started == p.started && MakeRoom(p, choice).threads == p.threads
    ensures var r := Fork(MakeRoom(p, choice), task);
      && Inv(r)
      && r.started == p.started + [task]
      && r.threads == p.threads
      && |r.processes| == r.peak == Min(Capacity(p.threads), |p.processes| + 1)
  {
    MakeRoomFreesSlot(p, choice);
  }

  /** How runTasks ends: every task admitted and every child reaped, or `die` after a failed fork. */
  datatype RunOutcome = Drained(pool: Pool) | ForkFailed(pool: Pool)

  /**
    runTasks: admit the tasks in order, waiting for a child whenever the pool
    is full, then wait until no child is left. `reapChoice(w)` picks which
    running child the w-th wait collects; `forkFails(k)` says whether the k-th
    fork fails.
  */
  method RunTasks(tasks: seq<Task>, threads: nat, reapChoice: nat -> nat, forkFails: nat -> bool)
    returns (outcome: RunOutcome)
    ensures outcome.Drained? <==> forall k :: 0 <= k < |tasks| ==> !forkFails(k)
    ensures outcome.pool.peak <= Capacity(threads)
    ensures |outcome.pool.started| <= |tasks| && outcome.pool.started == tasks[..|outcome.pool.started|]
    ensures outcome.Drained? ==>
      && outcome.pool.processes == []
      && outcome.pool.started == tasks
      && Distinct(outcome.pool.reaped)
      && (forall q :: q in outcome.pool.reaped <==> 1 <= q <= |tasks|)
      && outcome.pool.peak == Min(Capacity(threads), |tasks|)
    ensures outcome.ForkFailed? ==>
      && |outcome.pool.started| < |tasks|
      && forkFails(|outcome.pool.started|)
      && (forall k :: 0 <= k < |outcome.pool.started| ==> !forkFails(k))
  {
    var pool := Pool(threads, [], [], [], 0);
    var waits := 0;
    for i := 0 to |tasks|
      invariant Inv(pool)
      invariant pool.threads == threads
      invariant pool.started == tasks[..i]
      invariant |pool.processes| == pool.peak == Min(Capacity(threads), i)
      invariant forall k :: 0 <= k < i ==> !forkFails(k)
    {
      var full := |pool.processes| >= pool.threads;
      var choice := reapChoice(waits);
      AdmitFillsSlot(pool, choice, tasks[i]);
      if full {
        waits := waits + 1;
      }
      if forkFails(i) {
        return ForkFailed(MakeRoom(pool, choice));
      }
      pool := Fork(MakeRoom(pool, choice), tasks[i]);
      TakeOneMore(tasks, i);
    }
    assert tasks[..|tasks|] == tasks;
    pool := Drain(pool, reapChoice, waits);
    return Drained(pool);
  }

  /**
    The closing loop of runTasks: wait until no child is left. Every pid
    forked so far ends up reaped exactly once.
  */
  method Drain(p: Pool, reapChoice: nat -> nat, waits: nat) returns (r: Pool)
    requires Inv(p)
    ensures r.processes == []
    ensures r.threads == p.threads && r.started == p.started && r.peak == p.peak
    ensures Distinct(r.reaped) && forall q :: q in r.reaped <==> 1 <= q <= |p.started|
  {
    r := p;
    var w := waits;
    while |r.processes| > 0
      invariant Inv(r)
      invariant r.threads == p.threads && r.started == p.started && r.peak == p.peak
      decreases |r.processes|
    {
      r := WaitForProcess(r, reapChoice(w));
      w := w + 1;
    }
  }
}

=== FILE: probes.dfy ===
/**
  The pure decisions of the probe layer: which scanner a mode string selects
  (the switch of main) and how the WebSocket scanner classifies the HTTP
  status of its upgrade request. The network exchanges themselves are not
  part of this model.
*/
module Probes {
  import opened Wrappers

  /** The five scanner subclasses. */
  datatype Mode = Direct | Ping | Udp | Ssl | WebSocket

  /** The mode string that selects each scanner. */
  function ModeName(m: Mode): string
  {
    match m
    case Direct => "direct"
    case Ping => "ping"
    case Udp => "udp"
    case Ssl => "ssl"
    case WebSocket => "ws"
  }

  /** The switch of main: a recognised mode string, or None for the `default` branch that dies. */
  function ParseMode(s: string): (r: Option<Mode>)
    ensures r.Some? ==> ModeName(r.value) == s
  {
    if s == "direct" then Some(Direct)
    else if s == "ping" then Some(Ping)
    else if s == "udp" then Some(Udp)
    else if s == "ssl" then Some(Ssl)
    else if s == "ws" then Some(WebSocket)
    else None
  }

  /** Every scanner is reachable by its own name. */
  lemma ModeRoundTrip(m: Mode)
    ensures ParseMode(ModeName(m)) == Some(m)
  {
  }

  /** A string is accepted exactly when it is the name of some scanner. */
  lemma ModeAcceptedIffNamed(s: string)
    ensures ParseMode(s).Some? <==> exists m :: ModeName(m) == s
  {
    if exists m :: ModeName(m) == s {
      var m :| ModeName(m) == s;
      ModeRoundTrip(m);
    }
  }

  /** PHP's in_array over a list of integers. */
  function InArray(x: int, a: seq<int>): (r: bool)
    ensures r <==> x in a
  {
    if |a| == 0 then false else a[0] == x || InArray(x, a[1..])
  }

  /** The status codes the WebSocket scanner counts as a successful upgrade attempt. */
  const UpgradeStatuses: seq<int> := [101, 403, 426, 429, 500, 503]

  datatype WsVerdict = Succeeded(status: int) | Failed

  /**
    WebSocketScanner::task: success, reporting the status, when the status is
    in the accepted list; failure for every other code, including 0 (no
    response at all) and 200.
  */
  function WebSocketVerdict(status: int): (v: WsVerdict)
    ensures v.Succeeded? <==> status in {101, 403, 426, 429, 500, 503}
    ensures v.Succeeded? ==> v.status == status
  {
    if InArray(status, UpgradeStatuses) then Succeeded(status) else Failed
  }

  /** The heuristic is not "any non-error code": no 2xx or 3xx status counts, nor does a missing response. */
  lemma WebSocketRejectsOrdinarySuccess(status: int)
    requires status == 0 || 200 <= status < 400
    ensures WebSocketVerdict(status) == Failed
  {
  }
}

=== FILE: scanner.dfy ===
/**
  The flow of main after the arguments are read: build the host list, pick
  the scanner for the mode, form the task list, run it on the worker pool.
*/
module Scanner {
  import opened Wrappers
  import opened Cidr
  import opened Tasks
  import opened Probes
  import opened WorkerPool

  /** A CIDR argument after its address and prefix have been read. */
  datatype CidrBlock = CidrBlock(base: Addr, prefix: nat)

  /**
    The arguments as getArguments returns them, with the comma lists
    already split. `cidr` is None when the option is absent or PHP-empty.
  */
  datatype Arguments = Arguments(
    filename: string,
    cidr: Option<CidrBlock>,
    mode: string,
    methods: seq<string>,
    ports: seq<Port>,
    threads: nat)

  /** PHP `empty()` on a string: the empty string and "0". */
  predicate PhpEmpty(s: string)
  {
    s == "" || s == "0"
  }

  /** Why main stops before scheduling anything. */
  datatype Fatal = BadCidr(cause: CidrError) | InvalidMode

  /**
    The host list of main. A non-empty file name wins and its lines (read
    by the caller, empty lines skipped) are the hosts; otherwise a CIDR
    argument is expanded; otherwise the list is empty.
  */
  function HostList(args: Arguments, fileLines: seq<string>): (r: Result<seq<Host>, Fatal>)
    ensures !PhpEmpty(args.filename) ==> r == Success(seq(|fileLines|, i requires 0 <= i < |fileLines| => Name(fileLines[i])))
    ensures PhpEmpty(args.filename) && args.cidr.None? ==> r == Success([])
    ensures PhpEmpty(args.filename) && args.cidr.Some? ==>
      (r.Failure? <==> args.cidr.value.prefix > 32)
    ensures PhpEmpty(args.filename) && args.cidr.Some? && r.Success? ==>
      |r.value| == |ExpandCidr(args.cidr.value.base, args.cidr.value.prefix).value| &&
      forall i :: 0 <= i < |r.value| ==> r.value[i] == Ip(ExpandCidr(args.cidr.value.base, args.cidr.value.prefix).value[i])
  {
    if !PhpEmpty(args.filename) then
      Success(seq(|fileLines|, i requires 0 <= i < |fileLines| => Name(fileLines[i])))
    else if args.cidr.Some? then
      match ExpandCidr(args.cidr.value.base, args.cidr.value.prefix)
      case Failure(e) => Failure(BadCidr(e))
      case Success(addrs) => Success(seq(|addrs|, i requires 0 <= i < |addrs| => Ip(addrs[i])))
    else Success([])
  }

  /** What main has decided once the switch is passed: the scanner, the tasks, the pool size. */
  datatype ScanPlan = ScanPlan(mode: Mode, tasks: seq<Task>, threads: nat)

  /**
    main up to runTasks. The host list is built first (so a bad prefix stops
    the script even before the mode is looked at), then an unknown mode
    dies, then the tasks are added.
  */
  function Plan(args: Arguments, fileLines: seq<string>): (r: Result<ScanPlan, Fatal>)
    ensures HostList(args, fileLines).Failure? ==> r == Failure(BadCidr(CidrError.NegativeShift))
    ensures HostList(args, fileLines).Success? ==>
      (r == Failure(InvalidMode) <==> ParseMode(args.mode).None?)
    ensures r.Success? ==>
      && Some(r.value.mode) == ParseMode(args.mode)
      && r.value.threads == args.threads
      && r.value.tasks == CrossProduct(HostList(args, fileLines).value, args.ports, args.methods)
      && |r.value.tasks| == |HostList(args, fileLines).value| * (|args.ports| * |args.methods|)
  {
    match HostList(args, fileLines)
    case Failure(e) => Failure(e)
    case Success(hosts) =>
      match ParseMode(args.mode)
      case None => Failure(InvalidMode)
      case Some(mode) => Success(ScanPlan(mode, CrossProduct(hosts, args.ports, args.methods), args.threads))
  }

  /** With neither a host file nor a CIDR block the scan runs over no tasks at all rather than failing. */
  lemma NoHostSourceRunsNothing(args: Arguments, fileLines: seq<string>)
    requires PhpEmpty(args.filename) && args.cidr.None?
    requires ParseMode(args.mode).Some?
    ensures Plan(args, fileLines).Success? && Plan(args, fileLines).value.tasks == []
  {
  }

  /** How a run of the script ends. */
  datatype ScanOutcome = Aborted(reason: Fatal) | Ran(mode: Mode, run: RunOutcome)

  /**
    The whole of main: plan, then run the tasks on the pool. A fatal
    configuration error stops before any child is forked.
  */
  method Scan(args: Arguments, fileLines: seq<string>, reapChoice: nat -> nat, forkFails: nat -> bool)
    returns (o: ScanOutcome)
    ensures o.Aborted? <==> Plan(args, fileLines).Failure?
    ensures o.Aborted? ==> o.reason == Plan(args, fileLines).error
    ensures o.Ran? ==>
      && Some(o.mode) == ParseMode(args.mode)
      && var planned := Plan(args, fileLines).value.tasks;
      && |o.run.pool.started| <= |planned|
      && o.run.pool.started == planned[..|o.run.pool.started|]
      && (o.run.Drained? <==> forall k :: 0 <= k < |planned| ==> !forkFails(k))
      && (o.run.Drained? ==>
            && o.run.pool.started == planned
            && o.run.pool.processes == []
            && o.run.pool.peak == Min(Capacity(args.threads), |planned|))
      && (o.run.ForkFailed? ==>
            && |o.run.pool.started| < |planned|
            && forkFails(|o.run.pool.started|)
            && (forall k :: 0 <= k < |o.run.pool.started| ==> !forkFails(k)))
      && o.run.pool.peak <= Capacity(args.threads)
  {
    var plan := Plan(args, fileLines);
    if plan.Failure? {
      return Aborted(plan.error);
    }
    var run := RunTasks(plan.value.tasks, plan.value.threads, reapChoice, forkFails);
    o := Ran(plan.value.mode, run);
  }
}

=== FILE: seqs.dfy ===
/** Small facts about sequences that the proofs about the task list, the URL and the pool share. */
module Seqs {

  lemma SplitLast<T>(s: seq<T>)
    requires |s| > 0
    ensures s == s[..|s| - 1] + [s[|s| - 1]]
  {
  }

  lemma SplitAt<T>(s: seq<T>, i: nat)
    requires i < |s|
    ensures s == s[..i] + ([s[i]] + s[i + 1..])
  {
  }

  lemma ConcatAssoc<T>(x: seq<T>, y: seq<T>, z: seq<T>)
    ensures (x + y) + z == x + (y + z)
  {
  }

  /** Entry x of the middle part of before + (block + rest) is entry |before| + x of the whole. */
  lemma IndexInMiddle<T>(whole: seq<T>, before: seq<T>, block: seq<T>, rest: seq<T>, x: nat, at: int)
    requires whole == before + (block + rest) && x < |block| && at == |before| + x
    ensures 0 <= at < |whole| && whole[at] == block[x]
  {
  }

  lemma TakeOneMore<T>(s: seq<T>, i: nat)
    requires i < |s|
    ensures s[..i + 1] == s[..i] + [s[i]]
  {
  }
}

=== FILE: tasks.dfy ===
/**
  Scan targets and the task list built by the nested host / port / method
  loops of main.
*/
module Tasks {
  import opened Cidr
  import opened Seqs

  /** Ports are naturals; PHP keeps them as the command-line strings. */
  type Port = nat

  /** A host as it reaches a scanner: a line of the host file or an address of a CIDR block. */
  datatype Host = Name(name: string) | Ip(addr: Addr)

  /** One unit of scan work, `['method' => verb, 'host' => host, 'port' => port]`; verb is the request method. */
  datatype Task = Task(verb: string, host: Host, port: Port)

  /** The innermost loop: one task per method, for a fixed host and port. */
  function MethodTasks(host: Host, port: Port, methods: seq<string>): (r: seq<Task>)
    ensures |r| == |methods|
    ensures forall k :: 0 <= k < |methods| ==> r[k] == Task(methods[k], host, port)
  {
    seq(|methods|, k requires 0 <= k < |methods| => Task(methods[k], host, port))
  }

  /** The middle loop: for a fixed host, every port in order, all methods of a port together. */
  function PortTasks(host: Host, ports: seq<Port>, methods: seq<string>): (r: seq<Task>)
    ensures |r| == |ports| * |methods|
  {
    if |ports| == 0 then []
    else
      var r := PortTasks(host, ports[..|ports| - 1], methods) + MethodTasks(host, ports[|ports| - 1], methods);
      assert |r| == (|ports| - 1) * |methods| + |methods|;
      r
  }

  /**
    The outer loop: the task list in the order main adds it, hosts outermost,
    then ports, then methods.
  */
  function CrossProduct(hosts: seq<Host>, ports: seq<Port>, methods: seq<string>): (r: seq<Task>)
    ensures |r| == |hosts| * (|ports| * |methods|)
  {
    if |hosts| == 0 then []
    else
      var r := CrossProduct(hosts[..|hosts| - 1], ports, methods) + PortTasks(hosts[|hosts| - 1], ports, methods);
      assert |r| == (|hosts| - 1) * (|ports| * |methods|) + |ports| * |methods|;
      r
  }

  /** (i * P + j) * M + k lies inside the block of the i-th outer iteration. */
  lemma IndexInBlock(i: nat, j: nat, k: nat, p: nat, m: nat)
    requires j < p && k < m
    ensures (i * p + j) * m + k < (i + 1) * (p * m)
    ensures (i * p + j) * m + k == i * (p * m) + (j * m + k)
  {
    assert (i * p + j) * m == i * (p * m) + j * m;
    assert j * m + k < (j + 1) * m;
    assert (j + 1) * m <= p * m;
  }

  lemma {:induction false} PortTasksIndex(host: Host, ports: seq<Port>, methods: seq<string>, j: nat, k: nat)
    requires j < |ports| && k < |methods|
    ensures j * |methods| + k < |PortTasks(host, ports, methods)|
    ensures PortTasks(host, ports, methods)[j * |methods| + k] == Task(methods[k], host, ports[j])
    decreases |ports|
  {
    var n := |ports|;
    var front := ports[..n - 1];
    IndexInBlock(0, j, k, n, |methods|);
    if j < n - 1 {
      PortTasksIndex(host, front, methods, j, k);
      IndexInBlock(0, j, k, n - 1, |methods|);
    } else {
      assert j * |methods| == |PortTasks(host, front, methods)|;
    }
  }

  /** The task list of two host lists one after the other is the two task lists one after the other. */
  lemma {:induction false} CrossProductAppend(a: seq<Host>, b: seq<Host>, ports: seq<Port>, methods: seq<string>)
    ensures CrossProduct(a + b, ports, methods) == CrossProduct(a, ports, methods) + CrossProduct(b, ports, methods)
    decreases |b|
  {
    if |b| == 0 {
      assert a + b == a;
    } else {
      var front, last := b[..|b| - 1], b[|b| - 1];
      assert (a + b)[..|a + b| - 1] == a + front;
      assert (a + b)[|a + b| - 1] == last;
      var row := PortTasks(last, ports, methods);
      assert CrossProduct(a + b, ports, methods) == CrossProduct(a + front, ports, methods) + row;
      assert CrossProduct(b, ports, methods) == CrossProduct(front, ports, methods) + row;
      CrossProductAppend(a, front, ports, methods);
      ConcatAssoc(CrossProduct(a, ports, methods), CrossProduct(front, ports, methods), row);
    }
  }

  /** A single host contributes exactly its own block. */
  lemma CrossProductSingle(host: Host, ports: seq<Port>, methods: seq<string>)
    ensures CrossProduct([host], ports, methods) == PortTasks(host, ports, methods)
  {
    assert [host][..0] == [];
  }

  /**
    Around host i the task list splits into the i blocks before it, its own
    block, and the blocks after it; entry j * |methods| + k of its own block is
    task (i, j, k).
  */
  lemma CrossProductSplit(hosts: seq<Host>, ports: seq<Port>, methods: seq<string>, i: nat, j: nat, k: nat)
    returns (before: seq<Task>, block: seq<Task>, rest: seq<Task>)
    requires i < |hosts| && j < |ports| && k < |methods|
    ensures CrossProduct(hosts, ports, methods) == before + (block + rest)
    ensures |before| == i * (|ports| * |methods|)
    ensures 0 <= j * |methods| + k < |block| && block[j * |methods| + k] == Task(methods[k], hosts[i], ports[j])
  {
    before, block, rest := CrossProduct(hosts[..i], ports, methods), PortTasks(hosts[i], ports, methods), CrossProduct(hosts[i + 1..], ports, methods);
    CrossProductAround(hosts, ports, methods, i);
    assert j * |methods| >= 0;
    PortTasksIndex(hosts[i], ports, methods, j, k);
  }

  /** The task list is the blocks of the hosts before host i, then host i's block, then the blocks after it. */
  lemma CrossProductAround(hosts: seq<Host>, ports: seq<Port>, methods: seq<string>, i: nat)
    requires i < |hosts|
    ensures CrossProduct(hosts, ports, methods) ==
      CrossProduct(hosts[..i], ports, methods) + (PortTasks(hosts[i], ports, methods) + CrossProduct(hosts[i + 1..], ports, methods))
    ensures |CrossProduct(hosts[..i], ports, methods)| == i * (|ports| * |methods|)
  {
    SplitAt(hosts, i);
    CrossProductAppend(hosts[..i], [hosts[i]] + hosts[i + 1..], ports, methods);
    CrossProductAppend([hosts[i]], hosts[i + 1..], ports, methods);
    CrossProductSingle(hosts[i], ports, methods);
    assert |hosts[..i]| == i;
  }

  /**
    Task (i, j, k) — host i, port j, method k — sits at index
    (i * |ports| + j) * |methods| + k: all methods of a (host, port) pair are
    adjacent and hosts vary slowest.
  */
  lemma CrossProductIndex(hosts: seq<Host>, ports: seq<Port>, methods: seq<string>, i: nat, j: nat, k: nat)
    requires i < |hosts| && j < |ports| && k < |methods|
    ensures && (i * |ports| + j) * |methods| + k < |CrossProduct(hosts, ports, methods)|
            && CrossProduct(hosts, ports, methods)[(i * |ports| + j) * |methods| + k] == Task(methods[k], hosts[i], ports[j])
  {
    var p, m := |ports|, |methods|;
    IndexInBlock(i, j, k, p, m);
    var before, block, rest := CrossProductSplit(hosts, ports, methods, i, j, k);
    IndexInMiddle(CrossProduct(hosts, ports, methods), before, block, rest, j * m + k, (i * p + j) * m + k);
  }

  /** Every task of a host's block is for that host and a listed port and method, and conversely. */
  lemma {:induction false} PortTasksMembership(host: Host, ports: seq<Port>, methods: seq<string>, t: Task)
    ensures t in PortTasks(host, ports, methods) <==> t.host == host && t.port in ports && t.verb in methods
    decreases |ports|
  {
    if |ports| > 0 {
      var front := ports[..|ports| - 1];
      PortTasksMembership(host, front, methods, t);
      SplitLast(ports);
      if t.host == host && t.port == ports[|ports| - 1] && t.verb in methods {
        var k :| 0 <= k < |methods| && methods[k] == t.verb;
        assert MethodTasks(host, t.port, methods)[k] == t;
      }
    }
  }

  /**
    The task list is exactly the combinations of a listed host, port and
    method: nothing is missed and nothing else appears.
  */
  lemma {:induction false} CrossProductMembership(hosts: seq<Host>, ports: seq<Port>, methods: seq<string>, t: Task)
    ensures t in CrossProduct(hosts, ports, methods) <==> t.host in hosts && t.port in ports && t.verb in methods
    decreases |hosts|
  {
    if |hosts| > 0 {
      var front := hosts[..|hosts| - 1];
      CrossProductMembership(front, ports, methods, t);
      PortTasksMembership(hosts[|hosts| - 1], ports, methods, t);
      SplitLast(hosts);
    }
  }

  /**
    The nested foreach loops of main, each addTask appending one task; the
    list they build is the cross product.
  */
  method AddTasks(hosts: seq<Host>, ports: seq<Port>, methods: seq<string>) returns (tasks: seq<Task>)
    ensures tasks == CrossProduct(hosts, ports, methods)
  {
    tasks := [];
    for i := 0 to |hosts|
      invariant tasks == CrossProduct(hosts[..i], ports, methods)
    {
      var host := hosts[i];
      var row: seq<Task> := [];
      for j := 0 to |ports|
        invariant row == PortTasks(host, ports[..j], methods)
      {
        var port := ports[j];
        var cell: seq<Task> := [];
        for k := 0 to |methods|
          invariant cell == MethodTasks(host, port, methods[..k])
        {
          cell := cell + [Task(methods[k], host, port)];
        }
        assert methods[..|methods|] == methods;
        assert ports[..j + 1][..j] == ports[..j];
        row := row + cell;
      }
      assert ports[..|ports|] == ports;
      assert hosts[..i + 1][..i] == hosts[..i];
      tasks := tasks + row;
    }
    assert hosts[..|hosts|] == hosts;
  }
}

=== FILE: url.dfy ===
/**
  URL construction of the scanner base class (convertHostPort, getUrl) and a
  reader for the URLs it builds, which shows that the scheme, host, port and
  path can all be recovered from the text.
*/
module Url {
  import opened Wrappers
  import opened Decimal
  import opened Tasks
  import opened Seqs

  /**
    convertHostPort: the authority part. The two well-known ports are left
    implicit (the scheme implies them); every other port is written out.
  */
  function HostPort(host: string, port: Port): (r: string)
    ensures r == host <==> port == 80 || port == 443
    ensures |r| >= |host| && r[..|host|] == host
  {
    if port == 80 || port == 443 then host else host + ":" + NatToString(port)
  }

  /** PHP truthiness of the optional uri argument: null, "" and "0" are all false. */
  predicate Truthy(uri: Option<string>)
  {
    uri.Some? && uri.value != "" && uri.value != "0"
  }

  function Scheme(port: Port): string
  {
    if port == 443 then "https" else "http"
  }

  /**
    getUrl: the scheme (https exactly for port 443), `://`, the authority,
    and `/uri` when the uri is truthy and nothing otherwise.
  */
  function GetUrl(host: string, port: Port, uri: Option<string>): (r: string)
    ensures (|r| >= 8 && r[..8] == "https://") <==> port == 443
    ensures var base := Scheme(port) + "://" + HostPort(host, port);
      && |r| >= |base| && r[..|base|] == base
      && (Truthy(uri) ==> r[|base|..] == "/" + uri.value)
      && (!Truthy(uri) ==> |r| == |base|)
  {
    var base := Scheme(port) + "://" + HostPort(host, port);
    var r := base + (if Truthy(uri) then "/" + uri.value else "");
    assert r[..|base|] == base;
    assert port != 443 ==> r[4] == ':';
    r
  }

  /** The parts of a URL: TLS or not, host, port (explicit or implied by the scheme), path. */
  datatype UrlParts = UrlParts(secure: bool, host: string, port: Port, path: Option<string>)

  /** The index of the first occurrence of c in s, if any. */
  function Find(s: string, c: char): (r: Option<nat>)
    ensures r.None? <==> c !in s
    ensures r.Some? ==> r.value < |s| && s[r.value] == c && c !in s[..r.value]
  {
    if |s| == 0 then None
    else if s[0] == c then Some(0)
    else
      var r := Find(s[1..], c);
      if r.None? then None
      else
        assert s[..r.value + 1] == [s[0]] + s[1..][..r.value];
        Some(r.value + 1)
  }

  /** Find returns the first occurrence, whatever the rest of the string holds. */
  lemma FindFirst(s: string, c: char, i: nat)
    requires i < |s| && s[i] == c && c !in s[..i]
    ensures Find(s, c) == Some(i)
  {
  }

  /** Reads `http://` or `https://`, the authority up to the first `/`, and the path after it. */
  function ParseUrl(u: string): Option<UrlParts>
  {
    if |u| >= 8 && u[..8] == "https://" then ParseAfterScheme(u[8..], true)
    else if |u| >= 7 && u[..7] == "http://" then ParseAfterScheme(u[7..], false)
    else None
  }

  function ParseAfterScheme(rest: string, secure: bool): Option<UrlParts>
  {
    var slash := Find(rest, '/');
    var authority := if slash.Some? then rest[..slash.value] else rest;
    var path := if slash.Some? then Some(rest[slash.value + 1..]) else None;
    ParseAuthority(authority, secure, path)
  }

  /** Reads `host` or `host:port`; without a port the scheme's default applies. */
  function ParseAuthority(authority: string, secure: bool, path: Option<string>): Option<UrlParts>
  {
    var colon := Find(authority, ':');
    if colon.None? then Some(UrlParts(secure, authority, if secure then 443 else 80, path))
    else
      match ParseNat(authority[colon.value + 1..])
      case None => None
      case Some(port) => Some(UrlParts(secure, authority[..colon.value], port, path))
  }

  /** A host that can stand in an authority: no port separator, no path separator. */
  predicate PlainHost(host: string)
  {
    ':' !in host && '/' !in host
  }

  lemma AuthorityParts(host: string, port: Port)
    requires PlainHost(host)
    ensures '/' !in HostPort(host, port)
    ensures port == 80 || port == 443 ==> Find(HostPort(host, port), ':') == None
    ensures port != 80 && port != 443 ==>
      Find(HostPort(host, port), ':') == Some(|host|) &&
      HostPort(host, port)[|host| + 1..] == NatToString(port)
  {
    var a := HostPort(host, port);
    if port != 80 && port != 443 {
      var digits := NatToString(port);
      assert a == host + [':'] + digits;
      assert a[..|host|] == host;
      FindFirst(a, ':', |host|);
      assert a[|host| + 1..] == digits;
      forall i | 0 <= i < |a|
        ensures a[i] != '/'
      {
        if i > |host| {
          assert a[i] == digits[i - |host| - 1];
        }
      }
    }
  }

  /** The authority convertHostPort writes reads back as the host and the port. */
  lemma AuthorityRoundTrip(host: string, port: Port, path: Option<string>)
    requires PlainHost(host)
    ensures ParseAuthority(HostPort(host, port), port == 443, path) == Some(UrlParts(port == 443, host, port, path))
  {
    AuthorityParts(host, port);
    if port != 80 && port != 443 {
      ParseNatToString(port);
      assert HostPort(host, port)[..|host|] == host;
    }
  }

  /** The text after the scheme separator reads back as the host, port and path. */
  lemma AfterSchemeRoundTrip(host: string, port: Port, uri: Option<string>)
    requires PlainHost(host)
    ensures ParseAfterScheme(HostPort(host, port) + (if Truthy(uri) then "/" + uri.value else ""), port == 443) ==
      Some(UrlParts(port == 443, host, port, if Truthy(uri) then uri else None))
  {
    AuthorityParts(host, port);
    ReadPath(HostPort(host, port), uri, port == 443);
    AuthorityRoundTrip(host, port, if Truthy(uri) then uri else None);
  }

  /** Behind a slash-free authority, the reader takes `/uri` as the path exactly when getUrl wrote it. */
  lemma ReadPath(authority: string, uri: Option<string>, secure: bool)
    requires '/' !in authority
    ensures ParseAfterScheme(authority + (if Truthy(uri) then "/" + uri.value else ""), secure)
         == ParseAuthority(authority, secure, if Truthy(uri) then uri else None)
  {
    if Truthy(uri) {
      PathSplit(authority, uri.value);
    } else {
      assert authority + "" == authority;
    }
  }

  /** Behind a slash-free authority the first `/` is the one that starts the path. */
  lemma PathSplit(authority: string, path: string)
    requires '/' !in authority
    ensures var rest := authority + ("/" + path);
      && Find(rest, '/') == Some(|authority|)
      && rest[..|authority|] == authority
      && rest[|authority| + 1..] == path
  {
    var rest := authority + ("/" + path);
    assert rest[..|authority|] == authority;
    FindFirst(rest, '/', |authority|);
    assert rest[|authority| + 1..] == path;
  }

  lemma GetUrlShape(host: string, port: Port, uri: Option<string>)
    ensures GetUrl(host, port, uri) ==
      (if port == 443 then "https://" else "http://") + (HostPort(host, port) + (if Truthy(uri) then "/" + uri.value else ""))
  {
    var prefix := Scheme(port) + "://";
    assert prefix == if port == 443 then "https://" else "http://";
    ConcatAssoc(prefix, HostPort(host, port), if Truthy(uri) then "/" + uri.value else "");
  }

  lemma ParseHttps(rest: string)
    ensures ParseUrl("https://" + rest) == ParseAfterScheme(rest, true)
  {
    var u := "https://" + rest;
    assert u[..8] == "https://" && u[8..] == rest;
  }

  lemma ParseHttp(rest: string)
    ensures ParseUrl("http://" + rest) == ParseAfterScheme(rest, false)
  {
    var u := "http://" + rest;
    assert !(|u| >= 8 && u[..8] == "https://") by {
      if |u| >= 8 {
        assert u[..8][4] == ':';
      }
    }
    assert u[..7] == "http://" && u[7..] == rest;
  }

  /**
    getUrl loses nothing: reading its result back gives the scheme (https
    exactly for port 443), the host, the port (written out or implied by the
    scheme) and the uri when it was truthy.
  */
  lemma UrlRoundTrip(host: string, port: Port, uri: Option<string>)
    requires PlainHost(host)
    ensures ParseUrl(GetUrl(host, port, uri)) ==
      Some(UrlParts(port == 443, host, port, if Truthy(uri) then uri else None))
  {
    var rest := HostPort(host, port) + (if Truthy(uri) then "/" + uri.value else "");
    GetUrlShape(host, port, uri);
    AfterSchemeRoundTrip(host, port, uri);
    if port == 443 {
      ParseHttps(rest);
    } else {
      ParseHttp(rest);
    }
  }

  /** The uri "0" is falsy in PHP, so it is dropped just like a missing uri. */
  lemma ZeroUriDropped(host: string, port: Port)
    ensures GetUrl(host, port, Some("0")) == GetUrl(host, port, None)
  {
  }
}

=== FILE: wrappers.dfy ===
/** Failure-compatible result types shared by the scanner model. */
module Wrappers {

  datatype Option<+T> = None | Some(value: T)

  /** Either a value, or the error that stopped the computation. */
  datatype Result<+R, +E> = Success(value: R) | Failure(error: E)
}
